=== FILE: README.md ===
# Quicktionary in Dafny

Quicktionary is a browser extension: with the mouse over a word, Ctrl+Q
highlights the word and opens a popup under it. The popup shows the word's
definitions from a dictionary web service. A small settings popup stores a
shortcut record. This project models the logic of the content script
(`contentScript.js`) and of the settings popup (`popup.js`) as pure
functions over immutable data, and proves what that logic promises.

Modules:

- `Wrappers`: `Option`, standing for the source's `null`/`undefined`.
- `CharClass`: JavaScript `\w`, `\s` and `\d` without the `u` flag, and ASCII lower-casing.
- `Decimal`: digit strings and their values (`Number(...)`, `${n}`).
- `Words`: the word-boundary expansion of `getWordAtPosition`, as a maximal run of `\w` characters around the caret.
- `Geometry`: points, rectangles and `isMouseInElement`.
- `PageTheme`: the `rgb(...)` regular expression as a scanner, and the dark/light threshold of 382.
- `Definition`: `fetchDefinition`'s rendering of a parsed response. The response becomes a list of blocks, and the blocks become HTML.
- `Tracker`: the session state (`lastWord`, the last mouse position, `highlightedElement`, `popupElement`) and the page's child nodes. Also the mousemove and keydown handlers, `highlightWord`, `removeHighlight`, `createPopup`, `removePopup` and `updatePopupContent`.
- `Settings`: the save and load handlers of the settings popup.

The page is modelled as the child list of the element that holds the
looked-up text node. The highlight is a `Marker` node in that list.
Unwrapping it splices its children back in at its position. The browser's
answers become parameters:

- `caretRangeFromPoint` becomes a `Caret`: a position in the list and an offset.
- `getBoundingClientRect` becomes `Rect` values.
- The scroll offsets become a `Point`.
- The body's computed background colour becomes a string.

The content script hard-codes Ctrl+Q and never reads the stored shortcut.
It always places the popup below the word. It renders a late response into
whatever popup is open at that moment.

## Model

| member | source | states |
|---|---|---|
| `Words.RunStart` | contentScript.js:84-86 | the leftward scan stops at or before the caret, passes over only word characters, and stops at the text start or after a non-word character |
| `Words.RunEnd` | contentScript.js:89-91 | the rightward scan stops at or after the caret and within the text, passes over only word characters, and stops at the text end or at a non-word character |
| `Words.WordAt` | contentScript.js:80-93 | the result is the maximal run: start ≤ offset ≤ end ≤ the text length, all of `text[start..end)` are `\w`, neither side can grow, and the word is exactly `text[start..end)` |
| `Words.MaximalRunUnique` | contentScript.js:84-91 | at most one pair of bounds around a caret is a maximal run, so the expansion's result is determined by the text and the offset |
| `Words.EmptyWordIff` | contentScript.js:84-93 | the word is empty exactly when neither the character before nor the character after the caret is a word character |
| `Words.FindWord` | contentScript.js:79-97 | the two loops end on the maximal run around the offset, return its text, and agree with `WordAt` |
| `CharClass.IsWordChar` | contentScript.js:84-89 | `\w` holds every ASCII digit, capital and `_`, and nothing outside ASCII or in `\s` |
| `Decimal.Show` | contentScript.js:239 | a number's decimal text is non-empty, all digits, and without a leading zero unless it is 0 |
| `Decimal.ValueOfShow` | contentScript.js:122-124 | reading back a number's decimal text with `Number` gives the number |
| `CharClass.LowerChar` | popup.js:18 | lower-casing turns each ASCII capital into its small letter (code plus 32), leaves every other character alone, and keeps `\w` membership |
| `CharClass.Lower` | popup.js:18 | lower-casing a string keeps its length and lower-cases each character in place |
| `CharClass.LowerIdempotent` | popup.js:18 | lower-casing twice equals lower-casing once, and the result has no ASCII capital |
| `Geometry.IsMouseInElement` | contentScript.js:32-39 | a point can be inside a rectangle only when the rectangle is not empty (left ≤ right, top ≤ bottom) |
| `Geometry.EdgesInclusive` | contentScript.js:32-39 | all four edges and corners of a rectangle count as inside it, and one pixel past any edge is outside |
| `PageTheme.SkipSpaces` | contentScript.js:122 | `\s*` drops only white space, stops at the end or at a non-space, and drops nothing when the input starts with a non-space |
| `PageTheme.SkipSpacesSuffix` | contentScript.js:122 | what `\s*` leaves is exactly the rest of the input after the dropped spaces |
| `PageTheme.ParseRgb` | contentScript.js:122 | a match starts with `rgb` in any letter case, followed by white space or `(`; anything else yields null |
| `PageTheme.ParseFormat` | contentScript.js:120-124 | the regular expression accepts the `rgb(r, g, b)` text a browser reports for every opaque colour, and the three captured numbers are the channels |
| `PageTheme.TransparentDoesNotMatch` | contentScript.js:122 | the transparent background `rgba(0, 0, 0, 0)` does not match, so `.match` returns null |
| `PageTheme.RgbaNeverMatches` | contentScript.js:122 | no `rgba(...)` colour matches, whatever its channels and alpha, so every semi-transparent body background makes `.match` return null |
| `PageTheme.ClassifyAsWritten` | contentScript.js:120-125 | there is a theme exactly when the pattern matches (otherwise the code throws), and it is dark iff the three captured channels sum below 382 |
| `PageTheme.Classify` | contentScript.js:183-188 | (corrected theme detection) a background the pattern rejects gives light; the page is dark iff the pattern matches and the channels sum below 382 |
| `PageTheme.ClassifyFormatted` | contentScript.js:120-125 | for a reported opaque colour, the page is dark iff `r + g + b < 382`, and the source and the corrected classification agree |
| `PageTheme.ThresholdBoundary` | contentScript.js:125 | a channel sum of 381 is dark and a sum of 382 is light |
| `PageTheme.LighterStaysLight` | contentScript.js:183-188 | raising any channel never turns a light classification dark |
| `PageTheme.ClassifyCorrection` | contentScript.js:183-188 | the source's classification fails exactly when the regular expression does not match; otherwise it equals the corrected one, and the transparent background falls back to light |
| `Definition.FirstSpoken` | contentScript.js:262-263 | `find` returns the first phonetic having both a non-empty text and a non-empty audio URL, and none when no phonetic has both |
| `Definition.EntryBlocks` | contentScript.js:235-268 | an entry's rendering starts with its title and, when some phonetic has both text and audio, ends with a pronunciation |
| `Definition.BlockHtml` | contentScript.js:236-266 | each block is one complete element, or the bare `<ul>` / `</ul>` tag of lines 240 / 248; it starts with `<` and ends with `>`; an item joins the appends of lines 242-246, the pronunciation those of lines 265-266, and the title is the initial value of line 236 |
| `Definition.RenderResponse` | contentScript.js:234-273 | a response that is not a non-empty array gives "Definition not found."; any other starts with the `<h2>` title |
| `Definition.EntryRendering` | contentScript.js:235-260 | over the whole entry: one heading per meaning numbered from 1 with its part of speech, every definition in order, and synonym and antonym paragraphs exactly for the non-empty lists |
| `Definition.HeadingsNumbered` | contentScript.js:238-239 | the rendering has exactly one heading per meaning, in meaning order, numbered `index + 1` with that meaning's part of speech |
| `Definition.SensesInOrder` | contentScript.js:241-247 | the definition items are every definition of every meaning, in order, each showing its example only when the example is a non-empty string |
| `Definition.RelatedWordsWhenPresent` | contentScript.js:250-259 | a synonyms or antonyms paragraph appears exactly for the meanings whose list is non-empty, in meaning order, carrying that list |
| `Definition.TitleAndPronunciation` | contentScript.js:236-267 | the entry opens with the word as its only title, and it carries exactly the pronunciation of the first phonetic having both text and audio, or none |
| `Definition.NotFoundIff` | contentScript.js:234-273 | the popup text is "Definition not found." exactly when the response is not an array or is empty; a found entry starts with its `<h2>` title |
| `Tracker.Init` | contentScript.js:1-5 | the script starts with no highlight, no popup, the mouse at (0, 0) and an empty `lastWord` |
| `Tracker.RemovePopup` | contentScript.js:221-226 | after removal there is no popup and nothing else changes |
| `Tracker.Unwrap` | contentScript.js:145-148 | moving the wrapper's children in front of it and removing it keeps the text content, and leaves no wrapper when it was the only one and wrapped none |
| `Tracker.RemoveHighlight` | contentScript.js:142-151 | afterwards there is neither highlight nor popup nor wrapper; the wrapper's children sit at its position in order; the text content is unchanged; with no highlight nothing changes |
| `Tracker.GetWordAtPosition` | contentScript.js:70-97 | there is no result when there is no caret or the caret is not in a text node; otherwise the range lies in that node and is the maximal word run around the offset, and the word equals the range's text |
| `Tracker.Surround` | contentScript.js:108 | the text node becomes three nodes whose text is the node's text, the middle one a wrapper of the given theme holding exactly the range's text; all other children stay in place |
| `Tracker.SurroundText` | contentScript.js:108 | wrapping the range in the highlight span leaves the page's text content unchanged |
| `Tracker.SurroundMarkers` | contentScript.js:108 | after wrapping, the page has exactly one wrapper, right after the text before the range |
| `Tracker.RequestUrl` | contentScript.js:230-231 | the request starts with the fixed endpoint and has one character per character of the word, none a capital; `\w` characters stay `\w`, so a looked-up word needs no escaping |
| `Tracker.LowerWordRequestedAsIs` | contentScript.js:230-231 | a word without capitals is requested as the endpoint followed by the word itself; with `RequestUrlIgnoresCase` this fixes the request of every word |
| `Tracker.RequestUrlIgnoresCase` | contentScript.js:230-231 | the lookup ignores case: two words give the same request exactly when they agree after lower-casing |
| `Tracker.Install` | contentScript.js:100-116 | the range's text is wrapped and the text content kept. The popup opens with "Loading definition..." at the wrapper's left edge and bottom plus the scroll offsets. Span and popup share one theme. Exactly one request is made, for `lastWord` |
| `Tracker.HighlightWord` | contentScript.js:100-116 | (corrected theme detection) a lookup always ends with one highlight and one popup of the same theme as the page's classification, text content unchanged, and one request |
| `Tracker.HighlightWordAsWritten` | contentScript.js:100-125 | when the background does not match `rgb(...)` the lookup ends with neither highlight nor popup nor request; otherwise it equals the corrected behaviour |
| `Tracker.TransparentBackgroundLosesHighlight` | contentScript.js:118-125 | on a transparent body background the code as written installs no highlight and makes no request, while the corrected code highlights |
| `Tracker.HighlightThenRemove` | contentScript.js:142-149 | removing a fresh highlight restores the page's text content exactly; the text node stays split in three at the range's ends |
| `Tracker.OnMouseMove` | contentScript.js:8-29 | the mouse position is always recorded and `lastWord` kept; highlight and popup are torn down iff both exist and the mouse is inside neither rectangle; on dismissal the result is exactly `removeHighlight`'s (children spliced back in place) with the new mouse position; otherwise, and always when there is no highlight, nothing but the mouse position changes |
| `Tracker.OnKeyDown` | contentScript.js:41-68 | (corrected theme detection) keys other than Ctrl+Q change nothing. On Ctrl+Q the old highlight goes. With an empty or missing word nothing more happens: no highlight, no popup, no message. Otherwise the word is sent, then requested lower-cased; it becomes `lastWord` and is exactly the highlighted text, and the loading popup opens |
| `Tracker.LookUp` | contentScript.js:56-66 | a found word becomes `lastWord`, is sent and then requested, and ends up alone inside the new wrapper under a loading popup; the text content is kept |
| `Tracker.OnKeyDownAsWritten` | contentScript.js:41-68 | (as written) with a background the theme pattern accepts it equals the corrected handler; with one it rejects, a found word is remembered and sent but nothing is highlighted, no popup opens and no definition is requested |
| `Tracker.UpdatePopupContent` | contentScript.js:282-286 | with no popup nothing changes; otherwise only the popup's content changes |
| `Tracker.OnDefinition` | contentScript.js:233-273 | an open popup shows "Definition not found." exactly when the response is not a non-empty array, and otherwise the HTML of the first entry's blocks; only the popup's content changes; with no popup nothing changes |
| `Settings.Modifiers` | popup.js:19-21 | the list holds `"ctrl"` iff the ctrl box is checked and `"shift"` iff the shift box is checked, without duplicates, ctrl before shift |
| `Settings.BuildShortcut` | popup.js:17-27 | there is no record exactly when the key field is empty; otherwise the key is the lower-cased input and the modifiers are the checked boxes |
| `Settings.Save` | popup.js:23-31 | an empty key leaves the stored record as it was; any other key stores the lower-cased key and exactly the checked modifiers |
| `Settings.Load` | popup.js:8-14 | with a stored record the key field shows its key and each box is checked iff the record lists that modifier; without one the form is untouched |
| `Settings.SaveThenLoad` | popup.js:8-31 | loading what a save wrote shows the lower-cased key and the same two boxes |
| `Settings.LoadThenSaveIsStable` | popup.js:9-27 | saving the form as loaded from a saved record stores that record again |

## Findings

| source | as written | input that shows it | evidently intended | confidence | as-written member | corrected member |
|---|---|---|---|---|---|---|
| contentScript.js:120-125 | `.match(...)` returns null for any background that is not `rgb(r, g, b)`, and `.slice(1)` on null throws before `surroundContents`, so the lookup ends with no highlight, no popup and no request (the word message was already sent); lines 183-188 repeat the same expression | body background `rgba(0, 0, 0, 0)`, which browsers report for a body without a background colour | the word is highlighted and the popup opens, with a palette chosen anyway (light here) | not executed | `Tracker.HighlightWordAsWritten` and `Tracker.OnKeyDownAsWritten` (shown by `Tracker.TransparentBackgroundLosesHighlight` and `PageTheme.RgbaNeverMatches`) | `Tracker.HighlightWord` (with `PageTheme.Classify`), used by `Tracker.OnKeyDown` |

## Left out

- Network: `fetch`, `response.json()` and the `.catch` branch that writes "Error fetching definition." (contentScript.js:231-232, 274-278) are not modelled. `Tracker.OnDefinition` takes the parsed response as a parameter.
- A malformed entry is not modelled. A missing or non-array `meanings`, `definitions`, `synonyms` or `antonyms` throws into the `.catch` branch; the entry datatype always has these lists, and a missing `phonetics` is the empty list.
- Non-string field values are not modelled: the template literals stringify a number or object in `definition`, `partOfSpeech`, `example`, `text` or `audio` (contentScript.js:239, 242, 244, 265-266), while the model's fields are strings.
- Coordinates are whole numbers: `clientX/Y`, `getBoundingClientRect` and the scroll offsets are doubles in the browser, while `Point` and `Rect` hold integers.
- Caret offsets and the word scan index UTF-16 code units in JavaScript, while a Dafny `char` is a Unicode scalar value; text outside the Basic Multilingual Plane is indexed differently.
- Extension messaging and storage: `chrome.runtime.sendMessage` is only an `Effect` value. `chrome.storage.sync` is an `Option<Shortcut>` passed in and returned. `window.close` and `console` output are not modelled.
- Event-listener wiring, `preventDefault` and the `passive` flag are not modelled. The handlers are functions of the state and the event.
- Browser layout and caret lookup are inputs, not computed: `caretRangeFromPoint`, `getBoundingClientRect`, `scrollX/scrollY` and `getComputedStyle`.
- Styles: the palette colours, `cssText` scrollbar rules and fixed popup styles are not modelled. The span and the popup record only the theme their colours were picked for.
- The document beyond the text node's parent element is not modelled. The popup `div` appended to `document.body` is the session's `popup` field, not a node. Range objects are plain offsets, not live ranges.
- `CharClass.Lower`: lower-cases ASCII capitals only, while JavaScript's `toLowerCase` also maps non-ASCII letters. For looked-up words this is exact, because they consist of `\w` characters only. For the settings key field, non-ASCII letters are kept as typed.
- `CharClass.LowerChar`: lower-cases ASCII capitals only, as the `CharClass.Lower` line above explains.
- `Settings.Save`: stores the key lower-cased in ASCII only, as the `CharClass.Lower` line above explains.
- `Settings.BuildShortcut`: states the key as `CharClass.Lower` of the input, so it inherits the ASCII-only lower-casing above.
- `PageTheme.ClassifyFormatted`: sums the channels exactly, while `Number` rounds digit strings above 2^53. The rounding cannot move a sum across 382, so the classification is the same.
- HTML escaping: neither the source nor the model escapes the response's strings before writing them as HTML.

=== FILE: CharClass.dfy ===
/** Character classes of JavaScript regular expressions (without the `u`
    flag) and the ASCII part of `String.prototype.toLowerCase`. */
module CharClass {

  /** `\d`: the ten ASCII digits. */
  predicate IsDigit(c: char) {
    '0' <= c <= '9'
  }

  predicate IsUpper(c: char) {
    'A' <= c <= 'Z'
  }

  /** `\w`: `[A-Za-z0-9_]`, nothing outside ASCII. */
  function IsWordChar(c: char): (w: bool)
    ensures IsDigit(c) || IsUpper(c) || c == '_' ==> w
    ensures w ==> c as int < 128 && !IsSpace(c)
  {
    ('a' <= c <= 'z') || IsUpper(c) || IsDigit(c) || c == '_'
  }

  /** `\s`: the WhiteSpace and LineTerminator code units of ECMAScript. */
  predicate IsSpace(c: char) {
    || ('\U{9}' <= c <= '\U{D}')
    || c == ' ' || c == '\U{A0}' || c == '\U{1680}'
    || ('\U{2000}' <= c <= '\U{200A}')
    || c == '\U{2028}' || c == '\U{2029}' || c == '\U{202F}' || c == '\U{205F}'
    || c == '\U{3000}' || c == '\U{FEFF}'
  }

  /** Lower-cases an ASCII capital; every other character is left alone. */
  function LowerChar(c: char): (d: char)
    ensures !IsUpper(d)
    ensures IsUpper(c) ==> d as int == c as int + 32
    ensures !IsUpper(c) ==> d == c
    ensures IsWordChar(d) <==> IsWordChar(c)
  {
    if IsUpper(c) then (c as int + 32) as char else c
  }

  function Lower(s: string): (r: string)
    ensures |r| == |s|
    ensures forall i :: 0 <= i < |s| ==> r[i] == LowerChar(s[i])
  {
    if s == [] then [] else [LowerChar(s[0])] + Lower(s[1..])
  }

  /** Lower-casing twice is lower-casing once, and it leaves no capital. */
  lemma LowerIdempotent(s: string)
    ensures Lower(Lower(s)) == Lower(s)
    ensures forall i :: 0 <= i < |s| ==> !IsUpper(Lower(s)[i])
  {
  }
}

=== FILE: Decimal.dfy ===
/** Decimal digit strings: the value JavaScript's `Number` gives a run of
    `\d` characters, and the text a template literal gives a natural number. */
module Decimal {
  import opened CharClass

  function DigitValue(c: char): (d: nat)
    requires IsDigit(c)
    ensures d < 10
  {
    c as int - '0' as int
  }

  function DigitChar(d: nat): (c: char)
    requires d < 10
    ensures IsDigit(c) && DigitValue(c) == d
  {
    ('0' as int + d) as char
  }

  predicate AllDigits(s: string) {
    forall i :: 0 <= i < |s| ==> IsDigit(s[i])
  }

  /** The number a digit string denotes; leading zeros are allowed. */
  function Value(s: string): nat
    requires AllDigits(s)
  {
    if s == [] then 0 else Value(s[..|s| - 1]) * 10 + DigitValue(s[|s| - 1])
  }

  /** The shortest decimal spelling of `n`. */
  function Show(n: nat): (s: string)
    ensures |s| > 0 && AllDigits(s)
    ensures n > 0 ==> s[0] != '0'
    decreases n
  {
    if n < 10 then [DigitChar(n)] else Show(n / 10) + [DigitChar(n % 10)]
  }

  /** Reading back what `Show` wrote gives the number again. */
  lemma {:induction false} ValueOfShow(n: nat)
    ensures Value(Show(n)) == n
    decreases n
  {
    if n >= 10 {
      var s := Show(n);
      assert s[..|s| - 1] == Show(n / 10);
      ValueOfShow(n / 10);
    }
  }
}

=== FILE: Definition.dfy ===
/** Rendering of a dictionary lookup (`fetchDefinition`'s success branch):
    the parsed response becomes a sequence of blocks, each either one
    complete HTML element of the result or the bare `<ul>` / `</ul>` tag
    that opens or closes a meaning's definition list, and the blocks are
    then written out as HTML. The `<h2>` title is the string's initial
    value; a definition item joins the appends of the `<li>` opening, the
    optional example and `</li>`; the pronunciation paragraph joins its two
    appends. */
module Definition {
  import opened Wrappers
  import opened Decimal

  /** One `meanings[].definitions[]` element. */
  datatype Sense = Sense(definition: string, example: Option<string>)

  datatype Meaning = Meaning(partOfSpeech: string, definitions: seq<Sense>, synonyms: seq<string>, antonyms: seq<string>)

  datatype Phonetic = Phonetic(text: Option<string>, audio: Option<string>)

  /** An entry of the response array; a missing `phonetics` is the empty sequence. */
  datatype Entry = Entry(meanings: seq<Meaning>, phonetics: seq<Phonetic>)

  /** The parsed JSON body: something other than an array, or an array of entries. */
  datatype Response = NotAnArray | Entries(entries: seq<Entry>)

  /** JavaScript truthiness of an optional string field. */
  predicate Truthy(o: Option<string>) {
    o.Some? && o.value != ""
  }

  predicate Spoken(p: Phonetic) {
    Truthy(p.text) && Truthy(p.audio)
  }

  datatype Block =
    | Title(word: string)
    | Heading(number: nat, partOfSpeech: string)
    | ListStart
    | Item(definition: string, example: Option<string>)
    | ListEnd
    | SynonymsLine(synonyms: seq<string>)
    | AntonymsLine(antonyms: seq<string>)
    | Pronunciation(text: string, audio: string)

  /** The example is shown only when it is truthy. */
  function Shown(d: Sense): (string, Option<string>) {
    (d.definition, if Truthy(d.example) then d.example else None)
  }

  function Items(ds: seq<Sense>): seq<Block> {
    if ds == [] then [] else [Item(Shown(ds[0]).0, Shown(ds[0]).1)] + Items(ds[1..])
  }

  /** The blocks for the meaning at position `index`. */
  function MeaningBlocks(index: nat, m: Meaning): seq<Block> {
    [Heading(index + 1, m.partOfSpeech), ListStart] + Items(m.definitions) + [ListEnd]
    + (if |m.synonyms| > 0 then [SynonymsLine(m.synonyms)] else [])
    + (if |m.antonyms| > 0 then [AntonymsLine(m.antonyms)] else [])
  }

  /** `meanings.forEach((meaning, index) => ...)`, from position `index` on. */
  function MeaningsBlocks(ms: seq<Meaning>, index: nat): seq<Block>
    decreases |ms|
  {
    if ms == [] then [] else MeaningBlocks(index, ms[0]) + MeaningsBlocks(ms[1..], index + 1)
  }

  /** `phonetics.find(p => p.text && p.audio)`, as a position. */
  function FirstSpoken(ps: seq<Phonetic>): (r: Option<nat>)
    ensures r.Some? ==> r.value < |ps| && Spoken(ps[r.value])
    ensures r.Some? ==> forall k :: 0 <= k < r.value ==> !Spoken(ps[k])
    ensures r.None? ==> forall k :: 0 <= k < |ps| ==> !Spoken(ps[k])
  {
    if ps == [] then None
    else if Spoken(ps[0]) then Some(0)
    else match FirstSpoken(ps[1..])
      case None => None
      case Some(k) => Some(k + 1)
  }

  function PronunciationBlocks(ps: seq<Phonetic>): seq<Block> {
    match FirstSpoken(ps)
    case None => []
    case Some(k) => [Pronunciation(ps[k].text.value, ps[k].audio.value)]
  }

  /** The blocks of one entry: the title, the meanings numbered from 1, and
      the pronunciation of the first spoken phonetic, if any, last. */
  function EntryBlocks(word: string, e: Entry): (bs: seq<Block>)
    ensures |bs| >= 1 && bs[0] == Title(word)
    ensures FirstSpoken(e.phonetics).Some? ==> bs[|bs| - 1].Pronunciation?
  {
    [Title(word)] + MeaningsBlocks(e.meanings, 0) + PronunciationBlocks(e.phonetics)
  }

  // ---- HTML ----

  /** `Array.prototype.join`. */
  function Join(words: seq<string>, sep: string): string
    decreases |words|
  {
    if |words| == 0 then ""
    else if |words| == 1 then words[0]
    else words[0] + sep + Join(words[1..], sep)
  }

  /** Each block is written as one complete element, or as the bare `<ul>`
      or `</ul>` tag of a definition list; either way it starts with `<` and
      ends with `>`. */
  function BlockHtml(b: Block): (h: string)
    ensures |h| >= 4 && h[0] == '<' && h[|h| - 1] == '>'
  {
    match b
    case Title(w) => "<h2>" + w + "</h2>"
    case Heading(n, pos) => "<h3>" + Show(n) + ". " + pos + "</h3>"
    case ListStart => "<ul>"
    case Item(d, ex) =>
      "<li><strong>Definition:</strong> " + d
      + (if ex.Some? then "<br><em>Example:</em> \"" + ex.value + "\"" else "")
      + "</li>"
    case ListEnd => "</ul>"
    case SynonymsLine(ws) => "<p><strong>Synonyms:</strong> " + Join(ws, ", ") + "</p>"
    case AntonymsLine(ws) => "<p><strong>Antonyms:</strong> " + Join(ws, ", ") + "</p>"
    case Pronunciation(t, a) =>
      "<p><strong>Pronunciation:</strong> " + t + " "
      + "<audio controls src=\"" + a + "\">Your browser does not support the audio element.</audio></p>"
  }

  function Html(bs: seq<Block>): string {
    if bs == [] then "" else BlockHtml(bs[0]) + Html(bs[1..])
  }

  const NotFound := "Definition not found."

  /** The popup content for a parsed response to a lookup of `word`. */
  function RenderResponse(word: string, resp: Response): (html: string)
    ensures !(resp.Entries? && |resp.entries| > 0) ==> html == NotFound
    ensures resp.Entries? && |resp.entries| > 0 ==> |html| >= 4 && html[..4] == "<h2>"
  {
    if resp.Entries? && |resp.entries| > 0 then
      var bs := EntryBlocks(word, resp.entries[0]);
      assert Html(bs) == ("<h2>" + word + "</h2>") + Html(bs[1..]);
      Html(bs)
    else NotFound
  }

  // ---- reading the blocks back ----

  function Opt<T>(o: Option<T>): seq<T> {
    match o
    case Some(v) => [v]
    case None => []
  }

  /** The values `f` picks out of the blocks, in order. */
  function Pick<T>(bs: seq<Block>, f: Block -> Option<T>): seq<T> {
    if bs == [] then [] else Opt(f(bs[0])) + Pick(bs[1..], f)
  }

  function HeadingOf(b: Block): Option<(nat, string)> {
    if b.Heading? then Some((b.number, b.partOfSpeech)) else None
  }

  function ItemOf(b: Block): Option<(string, Option<string>)> {
    if b.Item? then Some((b.definition, b.example)) else None
  }

  function SynonymsOf(b: Block): Option<seq<string>> {
    if b.SynonymsLine? then Some(b.synonyms) else None
  }

  function AntonymsOf(b: Block): Option<seq<string>> {
    if b.AntonymsLine? then Some(b.antonyms) else None
  }

  function PronunciationOf(b: Block): Option<(string, string)> {
    if b.Pronunciation? then Some((b.text, b.audio)) else None
  }

  function TitleOf(b: Block): Option<string> {
    if b.Title? then Some(b.word) else None
  }

  // ---- what the rendering promises ----

  lemma {:induction false} PickAppend<T>(a: seq<Block>, b: seq<Block>, f: Block -> Option<T>)
    ensures Pick(a + b, f) == Pick(a, f) + Pick(b, f)
    decreases |a|
  {
    if a == [] {
      assert a + b == b;
    } else {
      assert (a + b)[0] == a[0];
      assert (a + b)[1..] == a[1..] + b;
      PickAppend(a[1..], b, f);
      assert Pick(a + b, f) == Opt(f(a[0])) + (Pick(a[1..], f) + Pick(b, f));
    }
  }

  /** The definitions of every meaning, in order, each with its example only
      when it has one. */
  function AllSenses(ms: seq<Meaning>): seq<(string, Option<string>)>
    decreases |ms|
  {
    if ms == [] then []
    else
      seq(|ms[0].definitions|, j requires 0 <= j < |ms[0].definitions| => Shown(ms[0].definitions[j]))
      + AllSenses(ms[1..])
  }

  /** Each meaning's synonym list, in meaning order. */
  function SynonymLists(ms: seq<Meaning>): seq<seq<string>> {
    seq(|ms|, i requires 0 <= i < |ms| => ms[i].synonyms)
  }

  /** Each meaning's antonym list, in meaning order. */
  function AntonymLists(ms: seq<Meaning>): seq<seq<string>> {
    seq(|ms|, i requires 0 <= i < |ms| => ms[i].antonyms)
  }

  /** The synonym (or antonym) lists that are not empty, in meaning order. */
  function NonEmptyLists(ls: seq<seq<string>>): seq<seq<string>> {
    if ls == [] then []
    else (if |ls[0]| > 0 then [ls[0]] else []) + NonEmptyLists(ls[1..])
  }

  /** Items contribute nothing to a projection that ignores items. */
  lemma {:induction false} ItemsPickNothing<T>(ds: seq<Sense>, f: Block -> Option<T>)
    requires forall d: string, e: Option<string> :: f(Item(d, e)).None?
    ensures Pick(Items(ds), f) == []
    decreases |ds|
  {
    if ds != [] {
      var first := [Item(Shown(ds[0]).0, Shown(ds[0]).1)];
      PickAppend(first, Items(ds[1..]), f);
      PickOne(first[0], f);
      ItemsPickNothing(ds[1..], f);
    }
  }

  /** The items of a definition list are its senses, in order. */
  lemma {:induction false} ItemsPickItems(ds: seq<Sense>)
    ensures Pick(Items(ds), ItemOf) == seq(|ds|, j requires 0 <= j < |ds| => Shown(ds[j]))
    decreases |ds|
  {
    if ds != [] {
      var first := [Item(Shown(ds[0]).0, Shown(ds[0]).1)];
      PickAppend(first, Items(ds[1..]), ItemOf);
      PickOne(first[0], ItemOf);
      ItemsPickItems(ds[1..]);
    }
  }

  lemma PickOne<T>(b: Block, f: Block -> Option<T>)
    ensures Pick([b], f) == Opt(f(b))
  {
    assert [b][1..] == [];
  }

  /** Picking from one meaning's blocks, part by part. */
  lemma MeaningParts<T>(index: nat, m: Meaning, f: Block -> Option<T>)
    ensures Pick(MeaningBlocks(index, m), f)
      == Opt(f(Heading(index + 1, m.partOfSpeech))) + Opt(f(ListStart)) + Pick(Items(m.definitions), f)
      + Opt(f(ListEnd))
      + (if |m.synonyms| > 0 then Opt(f(SynonymsLine(m.synonyms))) else [])
      + (if |m.antonyms| > 0 then Opt(f(AntonymsLine(m.antonyms))) else [])
  {
    var h := [Heading(index + 1, m.partOfSpeech)];
    var items := Items(m.definitions);
    var syn: seq<Block> := if |m.synonyms| > 0 then [SynonymsLine(m.synonyms)] else [];
    var ant: seq<Block> := if |m.antonyms| > 0 then [AntonymsLine(m.antonyms)] else [];
    assert MeaningBlocks(index, m) == h + [ListStart] + items + [ListEnd] + syn + ant;
    PickAppend(h, [ListStart], f);
    PickAppend(h + [ListStart], items, f);
    PickAppend(h + [ListStart] + items, [ListEnd], f);
    PickAppend(h + [ListStart] + items + [ListEnd], syn, f);
    PickAppend(h + [ListStart] + items + [ListEnd] + syn, ant, f);
    PickOne(Heading(index + 1, m.partOfSpeech), f);
    PickOne(ListStart, f);
    PickOne(ListEnd, f);
    if |m.synonyms| > 0 {
      PickOne(SynonymsLine(m.synonyms), f);
    }
    if |m.antonyms| > 0 {
      PickOne(AntonymsLine(m.antonyms), f);
    }
  }

  /** What one meaning contributes to each kind of block. */
  lemma MeaningHeading(index: nat, m: Meaning)
    ensures Pick(MeaningBlocks(index, m), HeadingOf) == [(index + 1, m.partOfSpeech)]
  {
    ItemsPickNothing(m.definitions, HeadingOf);
    MeaningParts(index, m, HeadingOf);
  }

  lemma MeaningItems(index: nat, m: Meaning)
    ensures Pick(MeaningBlocks(index, m), ItemOf)
      == seq(|m.definitions|, j requires 0 <= j < |m.definitions| => Shown(m.definitions[j]))
  {
    ItemsPickItems(m.definitions);
    MeaningParts(index, m, ItemOf);
  }

  lemma MeaningSynonyms(index: nat, m: Meaning)
    ensures Pick(MeaningBlocks(index, m), SynonymsOf) == NonEmptyLists([m.synonyms])
  {
    ItemsPickNothing(m.definitions, SynonymsOf);
    MeaningParts(index, m, SynonymsOf);
    assert [m.synonyms][1..] == [];
  }

  lemma MeaningAntonyms(index: nat, m: Meaning)
    ensures Pick(MeaningBlocks(index, m), AntonymsOf) == NonEmptyLists([m.antonyms])
  {
    ItemsPickNothing(m.definitions, AntonymsOf);
    MeaningParts(index, m, AntonymsOf);
    assert [m.antonyms][1..] == [];
  }

  /** One numbered heading per meaning, in order, numbered from `index + 1`. */
  lemma HeadingsNumbered(ms: seq<Meaning>, index: nat)
    ensures |Pick(MeaningsBlocks(ms, index), HeadingOf)| == |ms|
    ensures forall i :: 0 <= i < |ms| ==>
      Pick(MeaningsBlocks(ms, index), HeadingOf)[i] == (index + i + 1, ms[i].partOfSpeech)
  {
    NumberedPick(ms, index);
    NumberedAt(ms, index);
  }

  /** The heading each meaning gets, numbered from `index + 1`. */
  function Numbered(ms: seq<Meaning>, index: nat): seq<(nat, string)>
    decreases |ms|
  {
    if ms == [] then [] else [(index + 1, ms[0].partOfSpeech)] + Numbered(ms[1..], index + 1)
  }

  lemma {:induction false} NumberedPick(ms: seq<Meaning>, index: nat)
    ensures Pick(MeaningsBlocks(ms, index), HeadingOf) == Numbered(ms, index)
    decreases |ms|
  {
    if ms != [] {
      MeaningHeading(index, ms[0]);
      PickAppend(MeaningBlocks(index, ms[0]), MeaningsBlocks(ms[1..], index + 1), HeadingOf);
      NumberedPick(ms[1..], index + 1);
    }
  }

  lemma {:induction false} NumberedAt(ms: seq<Meaning>, index: nat)
    ensures |Numbered(ms, index)| == |ms|
    ensures forall i :: 0 <= i < |ms| ==> Numbered(ms, index)[i] == (index + i + 1, ms[i].partOfSpeech)
    decreases |ms|
  {
    if ms != [] {
      NumberedAt(ms[1..], index + 1);
      forall i | 0 <= i < |ms|
        ensures Numbered(ms, index)[i] == (index + i + 1, ms[i].partOfSpeech)
      {
        if i > 0 {
          assert Numbered(ms, index)[i] == Numbered(ms[1..], index + 1)[i - 1];
          assert ms[1..][i - 1] == ms[i];
        }
      }
    }
  }

  /** Every definition appears, in order, with its example only when present. */
  lemma {:induction false} SensesInOrder(ms: seq<Meaning>, index: nat)
    ensures Pick(MeaningsBlocks(ms, index), ItemOf) == AllSenses(ms)
    decreases |ms|
  {
    if ms != [] {
      MeaningItems(index, ms[0]);
      PickAppend(MeaningBlocks(index, ms[0]), MeaningsBlocks(ms[1..], index + 1), ItemOf);
      SensesInOrder(ms[1..], index + 1);
    }
  }

  /** A synonyms or antonyms paragraph appears exactly for the meanings whose
      list is not empty, in meaning order. */
  lemma RelatedWordsWhenPresent(ms: seq<Meaning>, index: nat)
    ensures Pick(MeaningsBlocks(ms, index), SynonymsOf) == NonEmptyLists(SynonymLists(ms))
    ensures Pick(MeaningsBlocks(ms, index), AntonymsOf) == NonEmptyLists(AntonymLists(ms))
  {
    SynonymsInOrder(ms, index);
    AntonymsInOrder(ms, index);
  }

  lemma {:induction false} SynonymsInOrder(ms: seq<Meaning>, index: nat)
    ensures Pick(MeaningsBlocks(ms, index), SynonymsOf) == NonEmptyLists(SynonymLists(ms))
    decreases |ms|
  {
    if ms != [] {
      MeaningSynonyms(index, ms[0]);
      PickAppend(MeaningBlocks(index, ms[0]), MeaningsBlocks(ms[1..], index + 1), SynonymsOf);
      SynonymsInOrder(ms[1..], index + 1);
      assert SynonymLists(ms)[1..] == SynonymLists(ms[1..]);
    }
  }

  lemma {:induction false} AntonymsInOrder(ms: seq<Meaning>, index: nat)
    ensures Pick(MeaningsBlocks(ms, index), AntonymsOf) == NonEmptyLists(AntonymLists(ms))
    decreases |ms|
  {
    if ms != [] {
      MeaningAntonyms(index, ms[0]);
      PickAppend(MeaningBlocks(index, ms[0]), MeaningsBlocks(ms[1..], index + 1), AntonymsOf);
      AntonymsInOrder(ms[1..], index + 1);
      assert AntonymLists(ms)[1..] == AntonymLists(ms[1..]);
    }
  }

  /** The entry opens with the word as its only title and ends with at most
      one pronunciation, taken from the first phonetic having both a text and
      an audio URL. */
  lemma TitleAndPronunciation(word: string, e: Entry)
    ensures EntryBlocks(word, e)[0] == Title(word)
    ensures Pick(EntryBlocks(word, e), TitleOf) == [word]
    ensures FirstSpoken(e.phonetics).None? ==> Pick(EntryBlocks(word, e), PronunciationOf) == []
    ensures FirstSpoken(e.phonetics).Some? ==>
      var p := e.phonetics[FirstSpoken(e.phonetics).value];
      Pick(EntryBlocks(word, e), PronunciationOf) == [(p.text.value, p.audio.value)]
  {
    MeaningsPickNone(e.meanings, 0);
    var ms := MeaningsBlocks(e.meanings, 0);
    var ps := PronunciationBlocks(e.phonetics);
    PickAppend([Title(word)], ms, TitleOf);
    PickAppend([Title(word)] + ms, ps, TitleOf);
    PickAppend([Title(word)], ms, PronunciationOf);
    PickAppend([Title(word)] + ms, ps, PronunciationOf);
  }

  /** What `f` picks from a whole entry is what it picks from the meanings,
      when it ignores the title and the pronunciation. */
  lemma EntryPick<T>(word: string, e: Entry, f: Block -> Option<T>)
    requires f(Title(word)).None?
    requires FirstSpoken(e.phonetics).Some? ==> f(PronunciationBlocks(e.phonetics)[0]).None?
    ensures Pick(EntryBlocks(word, e), f) == Pick(MeaningsBlocks(e.meanings, 0), f)
  {
    var ms := MeaningsBlocks(e.meanings, 0);
    var ps := PronunciationBlocks(e.phonetics);
    PickAppend([Title(word)], ms, f);
    PickAppend([Title(word)] + ms, ps, f);
    PickOne(Title(word), f);
    if ps != [] {
      PickOne(ps[0], f);
      assert ps == [ps[0]];
    }
  }

  /** The whole rendering of an entry: one heading per meaning numbered from
      1, every definition in order, and a synonyms or antonyms paragraph for
      exactly the meanings whose list is not empty. */
  lemma EntryRendering(word: string, e: Entry)
    ensures |Pick(EntryBlocks(word, e), HeadingOf)| == |e.meanings|
    ensures forall i :: 0 <= i < |e.meanings| ==>
      Pick(EntryBlocks(word, e), HeadingOf)[i] == (i + 1, e.meanings[i].partOfSpeech)
    ensures Pick(EntryBlocks(word, e), ItemOf) == AllSenses(e.meanings)
    ensures Pick(EntryBlocks(word, e), SynonymsOf)
      == NonEmptyLists(SynonymLists(e.meanings))
    ensures Pick(EntryBlocks(word, e), AntonymsOf)
      == NonEmptyLists(AntonymLists(e.meanings))
  {
    EntryPick(word, e, HeadingOf);
    EntryPick(word, e, ItemOf);
    EntryPick(word, e, SynonymsOf);
    EntryPick(word, e, AntonymsOf);
    HeadingsNumbered(e.meanings, 0);
    SensesInOrder(e.meanings, 0);
    RelatedWordsWhenPresent(e.meanings, 0);
  }

  /** Meanings contribute neither titles nor pronunciations. */
  lemma {:induction false} MeaningsPickNone(ms: seq<Meaning>, index: nat)
    ensures Pick(MeaningsBlocks(ms, index), TitleOf) == []
    ensures Pick(MeaningsBlocks(ms, index), PronunciationOf) == []
    decreases |ms|
  {
    if ms != [] {
      ItemsPickNone(ms[0].definitions);
      MeaningParts(index, ms[0], TitleOf);
      MeaningParts(index, ms[0], PronunciationOf);
      PickAppend(MeaningBlocks(index, ms[0]), MeaningsBlocks(ms[1..], index + 1), TitleOf);
      PickAppend(MeaningBlocks(index, ms[0]), MeaningsBlocks(ms[1..], index + 1), PronunciationOf);
      MeaningsPickNone(ms[1..], index + 1);
    }
  }

  lemma ItemsPickNone(ds: seq<Sense>)
    ensures Pick(Items(ds), TitleOf) == [] && Pick(Items(ds), PronunciationOf) == []
  {
    ItemsPickNothing(ds, TitleOf);
    ItemsPickNothing(ds, PronunciationOf);
  }

  /** "Definition not found." is written exactly when the response is not a
      non-empty array; a found entry always begins with its `<h2>` title. */
  lemma NotFoundIff(word: string, resp: Response)
    ensures RenderResponse(word, resp) == NotFound <==> !(resp.Entries? && |resp.entries| > 0)
    ensures resp.Entries? && |resp.entries| > 0 ==>
      RenderResponse(word, resp)[..4] == "<h2>"
  {
    if resp.Entries? && |resp.entries| > 0 {
      var bs := EntryBlocks(word, resp.entries[0]);
      var out := Html(bs);
      assert bs[0] == Title(word);
      assert out == ("<h2>" + word + "</h2>") + Html(bs[1..]);
      assert out[..4] == "<h2>";
      assert out[0] != NotFound[0];
    }
  }
}

=== FILE: Geometry.dfy ===
/** Mouse coordinates and bounding rectangles (`isMouseInElement`). */
module Geometry {

  datatype Point = Point(x: int, y: int)

  /** A `DOMRect` as `getBoundingClientRect` reports it, in whole pixels. */
  datatype Rect = Rect(left: int, top: int, right: int, bottom: int)

  /** The mouse is over the element: all four edges count as inside. */
  function IsMouseInElement(p: Point, r: Rect): (inside: bool)
    ensures inside ==> r.left <= r.right && r.top <= r.bottom
  {
    r.left <= p.x <= r.right && r.top <= p.y <= r.bottom
  }

  /** Every edge of a rectangle belongs to it, and one pixel past any edge
      does not. */
  lemma EdgesInclusive(r: Rect, p: Point)
    requires r.left <= r.right && r.top <= r.bottom
    ensures IsMouseInElement(Point(r.left, r.top), r) && IsMouseInElement(Point(r.right, r.bottom), r)
    ensures IsMouseInElement(Point(r.left, r.bottom), r) && IsMouseInElement(Point(r.right, r.top), r)
    ensures r.top <= p.y <= r.bottom ==>
      !IsMouseInElement(Point(r.left - 1, p.y), r) && !IsMouseInElement(Point(r.right + 1, p.y), r)
    ensures r.left <= p.x <= r.right ==>
      !IsMouseInElement(Point(p.x, r.top - 1), r) && !IsMouseInElement(Point(p.x, r.bottom + 1), r)
  {
  }
}

=== FILE: PageTheme.dfy ===
/** Page-theme detection (`setThemeAwareHighlight`, `setThemeAwareStyles`):
    the body's computed background colour is matched against
    `^rgb\s*\(\s*(\d+)\s*,\s*(\d+)\s*,\s*(\d+)\s*\)$` (case-insensitive),
    the three channels are summed, and a sum below 382 means a dark page. */
module PageTheme {
  import opened Wrappers
  import opened CharClass
  import opened Decimal

  datatype Rgb = Rgb(r: nat, g: nat, b: nat)

  datatype Theme = Dark | Light

  /** 382 of a possible 765. */
  const DarkThreshold: nat := 382

  function ClassifyRgb(c: Rgb): Theme {
    if c.r + c.g + c.b < DarkThreshold then Dark else Light
  }

  /** Making any channel brighter never turns a light page dark. */
  lemma LighterStaysLight(c: Rgb, d: Rgb)
    requires c.r <= d.r && c.g <= d.g && c.b <= d.b
    requires ClassifyRgb(c) == Light
    ensures ClassifyRgb(d) == Light
  {
  }

  // ---- the regular expression, as a scanner over the remaining input ----

  /** `\s*`: drops the leading white space. */
  function SkipSpaces(s: string): (t: string)
    ensures |t| <= |s|
    ensures forall k :: 0 <= k < |s| - |t| ==> IsSpace(s[k])
    ensures t == [] || !IsSpace(t[0])
    ensures s != [] && !IsSpace(s[0]) ==> t == s
  {
    if s != [] && IsSpace(s[0]) then SkipSpaces(s[1..]) else s
  }

  /** What `\s*` leaves is exactly the rest of the input. */
  lemma {:induction false} SkipSpacesSuffix(s: string)
    ensures SkipSpaces(s) == s[|s| - |SkipSpaces(s)|..]
    decreases |s|
  {
    if s != [] && IsSpace(s[0]) {
      SkipSpacesSuffix(s[1..]);
      assert s[1..][|s[1..]| - |SkipSpaces(s[1..])|..] == s[|s| - |SkipSpaces(s)|..];
    }
  }

  /** Length of the leading run of `\d`. */
  function DigitRunLength(s: string): (n: nat)
    ensures n <= |s| && AllDigits(s[..n])
    ensures n == |s| || !IsDigit(s[n])
  {
    if s != [] && IsDigit(s[0]) then 1 + DigitRunLength(s[1..]) else 0
  }

  /** `(\d+)` followed by `Number(...)` on the captured group. */
  function Number(s: string): (o: Option<(nat, string)>)
    ensures o.Some? ==> |o.value.1| < |s|
  {
    var n := DigitRunLength(s);
    if n == 0 then None else Some((Value(s[..n]), s[n..]))
  }

  function Literal(c: char, s: string): Option<string> {
    if s != [] && s[0] == c then Some(s[1..]) else None
  }

  /** `\s*(\d+)\s*` */
  function Channel(s: string): Option<(nat, string)> {
    var p :- Number(SkipSpaces(s));
    Some((p.0, SkipSpaces(p.1)))
  }

  /** `^rgb` under the `i` flag. */
  predicate StartsWithRgb(s: string) {
    |s| >= 3 && (s[0] == 'r' || s[0] == 'R') && (s[1] == 'g' || s[1] == 'G') && (s[2] == 'b' || s[2] == 'B')
  }

  /** The three captured channels, or None where `.match` returns null. */
  function ParseRgb(s: string): (o: Option<Rgb>)
    ensures o.Some? ==> StartsWithRgb(s) && |s| > 3 && (s[3] == '(' || IsSpace(s[3]))
  {
    if !StartsWithRgb(s) then None
    else
      var open :- Literal('(', SkipSpaces(s[3..]));
      Channels(open)
  }

  /** `\s*(\d+)\s*,\s*(\d+)\s*,\s*(\d+)\s*\)$` */
  function Channels(s: string): Option<Rgb> {
    var red :- Channel(s);
    var comma :- Literal(',', red.1);
    var greenBlue :- LastTwoChannels(comma);
    Some(Rgb(red.0, greenBlue.0, greenBlue.1))
  }

  /** `\s*(\d+)\s*,\s*(\d+)\s*\)$` */
  function LastTwoChannels(s: string): Option<(nat, nat)> {
    var green :- Channel(s);
    var comma :- Literal(',', green.1);
    var blue :- Channel(comma);
    var close :- Literal(')', blue.1);
    if close == [] then Some((green.0, blue.0)) else None
  }

  /** How browsers serialise an opaque computed colour. */
  function Format(c: Rgb): string {
    "rgb(" + Show(c.r) + ", " + Show(c.g) + ", " + Show(c.b) + ")"
  }

  lemma {:induction false} DigitRunOfDigits(ds: string, rest: string)
    requires AllDigits(ds)
    requires rest == [] || !IsDigit(rest[0])
    ensures DigitRunLength(ds + rest) == |ds|
    decreases |ds|
  {
    if ds != [] {
      assert (ds + rest)[1..] == ds[1..] + rest;
      DigitRunOfDigits(ds[1..], rest);
    }
  }

  lemma NumberOfDigits(ds: string, rest: string)
    requires ds != [] && AllDigits(ds)
    requires rest == [] || !IsDigit(rest[0])
    ensures Number(ds + rest) == Some((Value(ds), rest))
  {
    DigitRunOfDigits(ds, rest);
    assert (ds + rest)[..|ds|] == ds;
    assert (ds + rest)[|ds|..] == rest;
  }

  lemma SkipOneSpace(x: string)
    ensures SkipSpaces(" " + x) == SkipSpaces(x)
  {
    assert (" " + x)[1..] == x;
  }

  lemma LeadingBlanks(lead: string, ds: string, rest: string)
    requires lead == [] || lead == " "
    requires ds != []
    requires !IsSpace(ds[0])
    ensures SkipSpaces(lead + ds + rest) == ds + rest
  {
    var x := ds + rest;
    assert lead + ds + rest == lead + x;
    assert x[0] == ds[0];
    if lead == " " {
      SkipOneSpace(x);
    } else {
      assert lead + x == x;
    }
  }

  lemma ChannelStep(x: string, y: string, v: nat, rest: string)
    requires SkipSpaces(x) == y
    requires Number(y) == Some((v, rest))
    requires SkipSpaces(rest) == rest
    ensures Channel(x) == Some((v, rest))
  {
  }

  /** `\s*(\d+)\s*` over a digit string and its delimiter, with or without
      a blank in front. */
  lemma ChannelOfDigits(lead: string, ds: string, rest: string)
    requires lead == [] || lead == " "
    requires ds != [] && AllDigits(ds)
    requires rest != [] && (rest[0] == ',' || rest[0] == ')')
    ensures Channel(lead + ds + rest) == Some((Value(ds), rest))
  {
    LeadingBlanks(lead, ds, rest);
    NumberOfDigits(ds, rest);
    ChannelStep(lead + ds + rest, ds + rest, Value(ds), rest);
  }

  lemma CloseParen()
    ensures Literal(')', ")") == Some("")
  {
    var s := ")";
    assert |s| == 1 && s[0] == ')';
    assert s[1..] == "";
  }

  lemma LastTwoStep(s: string, tail: string, u: string, g: nat, b: nat)
    requires Channel(s) == Some((g, tail))
    requires Literal(',', tail) == Some(u)
    requires Channel(u) == Some((b, ")"))
    ensures LastTwoChannels(s) == Some((g, b))
  {
    CloseParen();
  }

  lemma ChannelsStep(s: string, tail: string, u: string, r: nat, g: nat, b: nat)
    requires Channel(s) == Some((r, tail))
    requires Literal(',', tail) == Some(u)
    requires LastTwoChannels(u) == Some((g, b))
    ensures Channels(s) == Some(Rgb(r, g, b))
  {
  }

  /** Cutting `x, y)` after its first comma. */
  lemma CommaSplit(head: string, x: string, y: string)
    ensures head + x + ", " + y + ")" == head + x + (", " + y + ")")
    ensures Literal(',', ", " + y + ")") == Some(" " + y + ")")
  {
    assert (", " + y + ")")[1..] == " " + y + ")";
  }

  lemma LastTwoOfDigits(gs: string, bs: string)
    requires gs != [] && AllDigits(gs)
    requires bs != [] && AllDigits(bs)
    ensures LastTwoChannels(" " + gs + ", " + bs + ")") == Some((Value(gs), Value(bs)))
  {
    var tail := ", " + bs + ")";
    CommaSplit(" ", gs, bs);
    ChannelOfDigits(" ", gs, tail);
    ChannelOfDigits(" ", bs, ")");
    LastTwoStep(" " + gs + tail, tail, " " + bs + ")", Value(gs), Value(bs));
  }

  lemma ChannelsSplit(rs: string, gs: string, bs: string)
    ensures rs + ", " + gs + ", " + bs + ")" == "" + rs + (", " + gs + ", " + bs + ")")
    ensures Literal(',', ", " + gs + ", " + bs + ")") == Some(" " + gs + ", " + bs + ")")
  {
    assert (", " + gs + ", " + bs + ")")[1..] == " " + gs + ", " + bs + ")";
  }

  lemma ChannelsOfDigits(rs: string, gs: string, bs: string)
    requires rs != [] && AllDigits(rs)
    requires gs != [] && AllDigits(gs)
    requires bs != [] && AllDigits(bs)
    ensures Channels(rs + ", " + gs + ", " + bs + ")") == Some(Rgb(Value(rs), Value(gs), Value(bs)))
  {
    var tail := ", " + gs + ", " + bs + ")";
    ChannelsSplit(rs, gs, bs);
    ChannelOfDigits("", rs, tail);
    LastTwoOfDigits(gs, bs);
    ChannelsStep("" + rs + tail, tail, " " + gs + ", " + bs + ")", Value(rs), Value(gs), Value(bs));
  }

  /** Parsing what a browser reports for `rgb(r, g, b)` gives back the
      three channels. */
  lemma ParseFormat(c: Rgb)
    ensures ParseRgb(Format(c)) == Some(c)
  {
    var rs, gs, bs := Show(c.r), Show(c.g), Show(c.b);
    var inner := rs + ", " + gs + ", " + bs + ")";
    var open := "(" + inner;
    var s := Format(c);
    assert s == "rgb" + open;
    assert StartsWithRgb(s);
    assert s[3..] == open;
    assert SkipSpaces(open) == open;
    assert open[1..] == inner;
    ChannelsOfDigits(rs, gs, bs);
    ValueOfShow(c.r);
    ValueOfShow(c.g);
    ValueOfShow(c.b);
  }

  /** The colour Chrome reports for a transparent body does not match. */
  lemma TransparentDoesNotMatch()
    ensures ParseRgb("rgba(0, 0, 0, 0)") == None
  {
    var s := "rgba(0, 0, 0, 0)";
    assert StartsWithRgb(s);
    assert s[3..] == "a(0, 0, 0, 0)";
    assert SkipSpaces(s[3..]) == s[3..];
    assert Literal('(', SkipSpaces(s[3..])) == None;
  }

  /** No `rgba(...)` colour matches, whatever its channels and alpha: after
      `rgb` the pattern allows only white space or `(`. */
  lemma RgbaNeverMatches(rest: string)
    ensures ParseRgb("rgba" + rest) == None
  {
    var s := "rgba" + rest;
    assert s[3] == 'a';
    assert !IsSpace(s[3]) && s[3] != '(';
  }

  /** As written: for a background the regular expression rejects, `.match`
      yields null and `.slice(1)` throws a TypeError, represented by None. */
  function ClassifyAsWritten(background: string): (o: Option<Theme>)
    ensures o.Some? <==> ParseRgb(background).Some?
    ensures o.Some? ==>
      var c := ParseRgb(background).value;
      (o.value == Dark <==> c.r + c.g + c.b < DarkThreshold)
  {
    var c :- ParseRgb(background);
    Some(ClassifyRgb(c))
  }

  /** Corrected: a background that is not `rgb(...)` (transparent, say)
      falls back to the light palette instead of throwing. */
  function Classify(background: string): (t: Theme)
    ensures ParseRgb(background).None? ==> t == Light
    ensures t == Dark <==>
      ParseRgb(background).Some?
      && ParseRgb(background).value.r + ParseRgb(background).value.g + ParseRgb(background).value.b < DarkThreshold
  {
    match ClassifyAsWritten(background)
    case Some(t) => t
    case None => Light
  }

  /** For every colour a browser reports as `rgb(r, g, b)`: dark iff the
      channels sum below 382, the same with or without the correction. */
  lemma ClassifyFormatted(c: Rgb)
    ensures ClassifyAsWritten(Format(c)) == Some(Classify(Format(c)))
    ensures Classify(Format(c)) == Dark <==> c.r + c.g + c.b < 382
  {
    ParseFormat(c);
  }

  /** The boundary: a sum of 381 is dark, a sum of 382 is light. */
  lemma ThresholdBoundary()
    ensures Classify(Format(Rgb(127, 127, 127))) == Dark
    ensures Classify(Format(Rgb(128, 127, 127))) == Light
  {
    ClassifyFormatted(Rgb(127, 127, 127));
    ClassifyFormatted(Rgb(128, 127, 127));
  }

  /** The two readings of the background differ only where the source throws. */
  lemma ClassifyCorrection(background: string)
    ensures ClassifyAsWritten(background).Some? ==> ClassifyAsWritten(background) == Some(Classify(background))
    ensures ClassifyAsWritten(background).None? <==> ParseRgb(background).None?
    ensures ClassifyAsWritten("rgba(0, 0, 0, 0)").None? && Classify("rgba(0, 0, 0, 0)") == Light
  {
    TransparentDoesNotMatch();
  }
}

=== FILE: Settings.dfy ===
/** The settings popup (`popup.js`): saving the shortcut form into the
    stored `shortcut` record and loading the record back into the form. */
module Settings {
  import opened Wrappers
  import opened CharClass

  /** The stored `shortcut` record. */
  datatype Shortcut = Shortcut(key: string, modifiers: seq<string>)

  /** The key field and the two modifier checkboxes. */
  datatype Form = Form(key: string, ctrl: bool, shift: bool)

  /** The modifier list the save handler builds: `"ctrl"` pushed first, then
      `"shift"`. */
  function Modifiers(ctrl: bool, shift: bool): (mods: seq<string>)
    ensures "ctrl" in mods <==> ctrl
    ensures "shift" in mods <==> shift
    ensures |mods| == (if ctrl then 1 else 0) + (if shift then 1 else 0)
    ensures forall i, j :: 0 <= i < j < |mods| ==> mods[i] != mods[j]
    ensures forall i, j :: 0 <= i < |mods| && 0 <= j < |mods| && mods[i] == "ctrl" && mods[j] == "shift" ==> i < j
  {
    (if ctrl then ["ctrl"] else []) + (if shift then ["shift"] else [])
  }

  /** The record a save click writes, or None when the key field is empty. */
  function BuildShortcut(f: Form): (r: Option<Shortcut>)
    ensures r.None? <==> f.key == ""
    ensures r.Some? ==> r.value.key == Lower(f.key) && r.value.modifiers == Modifiers(f.ctrl, f.shift)
  {
    var key := Lower(f.key);
    if key == "" then None else Some(Shortcut(key, Modifiers(f.ctrl, f.shift)))
  }

  /** The stored record after a save click: an empty key saves nothing. */
  function Save(f: Form, stored: Option<Shortcut>): (r: Option<Shortcut>)
    ensures f.key == "" ==> r == stored
    ensures f.key != "" ==> r.Some? && r.value.key == Lower(f.key)
    ensures f.key != "" ==> ("ctrl" in r.value.modifiers <==> f.ctrl) && ("shift" in r.value.modifiers <==> f.shift)
    ensures f.key != "" ==> r.value.modifiers == Modifiers(f.ctrl, f.shift)
  {
    match BuildShortcut(f)
    case None => stored
    case Some(sc) => Some(sc)
  }

  /** The load handler: with a stored record, the key field shows its key and
      each box is checked iff the record lists that modifier; without one
      the form is left as it is. */
  function Load(stored: Option<Shortcut>, f: Form): (r: Form)
    ensures stored.None? ==> r == f
    ensures stored.Some? ==>
      && r.key == stored.value.key
      && (r.ctrl <==> "ctrl" in stored.value.modifiers)
      && (r.shift <==> "shift" in stored.value.modifiers)
  {
    match stored
    case None => f
    case Some(sc) => Form(sc.key, "ctrl" in sc.modifiers, "shift" in sc.modifiers)
  }

  /** Reopening the popup after a save shows the lower-cased key and the
      same two boxes. */
  lemma SaveThenLoad(f: Form, stored: Option<Shortcut>, shown: Form)
    requires f.key != ""
    ensures Load(Save(f, stored), shown) == Form(Lower(f.key), f.ctrl, f.shift)
  {
  }

  /** Saving the form as loaded from a saved record writes the same record
      again. */
  lemma LoadThenSaveIsStable(f: Form, stored: Option<Shortcut>, shown: Form)
    requires f.key != ""
    ensures Save(Load(Save(f, stored), shown), Save(f, stored)) == Save(f, stored)
  {
    LowerIdempotent(f.key);
  }
}

=== FILE: Tracker.dfy ===
/** The content script's session: the text under the caret, the single
    highlight wrapper and the single popup, and the handlers that change
    them. The document is modelled as the child list of the element that
    holds the looked-up text node. */
module Tracker {
  import opened Wrappers
  import opened CharClass
  import opened Words
  import opened Geometry
  import opened PageTheme
  import opened Definition

  /** A child node. `Marker` is the `span.extension-highlight` wrapper, with
      the theme its colours were chosen for. */
  datatype Node =
    | Text(data: string)
    | Marker(children: seq<Node>, theme: Theme)
    | Element(tag: string, text: string)

  /** `textContent` of a child list. */
  function NodesText(ns: seq<Node>): string
    decreases ns
  {
    if ns == [] then ""
    else
      (match ns[0]
       case Text(d) => d
       case Element(_, t) => t
       case Marker(cs, _) => NodesText(cs))
      + NodesText(ns[1..])
  }

  predicate NoMarkers(ns: seq<Node>) {
    forall k :: 0 <= k < |ns| ==> !ns[k].Marker?
  }

  datatype Content = PlainText(text: string) | Markup(html: string)

  const Loading := "Loading definition..."

  /** The popup `div`: its content, its absolute position, and the theme its
      colours were chosen for. */
  datatype Popup = Popup(content: Content, left: int, top: int, theme: Theme)

  /** The module-level variables `lastWord`, `lastKnownMouseX/Y`,
      `highlightedElement` (as a position in the page) and `popupElement`. */
  datatype Session = Session(page: seq<Node>, highlight: Option<nat>, popup: Option<Popup>, mouse: Point, lastWord: string)

  /** The highlight and the popup exist together; the highlight points at the
      one and only wrapper, which wraps no other wrapper. */
  predicate Valid(s: Session) {
    && (s.highlight.Some? <==> s.popup.Some?)
    && (s.highlight.Some? ==>
          s.highlight.value < |s.page| && s.page[s.highlight.value].Marker?
          && NoMarkers(s.page[s.highlight.value].children))
    && (forall j :: 0 <= j < |s.page| ==> (s.page[j].Marker? <==> s.highlight == Some(j)))
  }

  /** The state when the script is loaded on a page. */
  function Init(page: seq<Node>): (s: Session)
    requires NoMarkers(page)
    ensures Valid(s) && s.highlight.None? && s.popup.None?
    ensures s.page == page && s.mouse == Point(0, 0) && s.lastWord == ""
  {
    Session(page, None, None, Point(0, 0), "")
  }

  // ---- text content ----

  lemma {:induction false} NodesTextAppend(a: seq<Node>, b: seq<Node>)
    ensures NodesText(a + b) == NodesText(a) + NodesText(b)
    decreases |a|
  {
    if a == [] {
      assert a + b == b;
    } else {
      assert (a + b)[0] == a[0];
      assert (a + b)[1..] == a[1..] + b;
      NodesTextAppend(a[1..], b);
    }
  }

  lemma NodesTextOne(n: Node)
    ensures NodesText([n]) == (match n
                               case Text(d) => d
                               case Element(_, t) => t
                               case Marker(cs, _) => NodesText(cs))
  {
    assert [n][1..] == [];
  }

  /** Replacing position `i` by `mid` changes the text only there. */
  lemma NodesTextSplice(page: seq<Node>, i: nat, mid: seq<Node>)
    requires i < |page|
    ensures NodesText(page[..i] + mid + page[i + 1..])
      == NodesText(page[..i]) + NodesText(mid) + NodesText(page[i + 1..])
    ensures NodesText(page) == NodesText(page[..i]) + NodesText([page[i]]) + NodesText(page[i + 1..])
  {
    NodesTextAppend(page[..i], mid);
    NodesTextAppend(page[..i] + mid, page[i + 1..]);
    assert page == page[..i] + [page[i]] + page[i + 1..];
    NodesTextAppend(page[..i], [page[i]]);
    NodesTextAppend(page[..i] + [page[i]], page[i + 1..]);
  }

  // ---- removeHighlight / removePopup ----

  function RemovePopup(s: Session): (t: Session)
    ensures t.popup.None?
    ensures t.page == s.page && t.highlight == s.highlight && t.mouse == s.mouse && t.lastWord == s.lastWord
  {
    if s.popup.Some? then s.(popup := None) else s
  }

  /** The wrapper at `i` replaced by its children, in order: the text content
      is kept, and when the wrapper was the only one and wrapped none, no
      wrapper is left. */
  function Unwrap(page: seq<Node>, i: nat): (out: seq<Node>)
    requires i < |page| && page[i].Marker?
    ensures |out| == |page| - 1 + |page[i].children|
    ensures NodesText(out) == NodesText(page)
    ensures NoMarkers(page[i].children) && (forall j :: 0 <= j < |page| && j != i ==> !page[j].Marker?)
      ==> NoMarkers(out)
  {
    var out := page[..i] + page[i].children + page[i + 1..];
    NodesTextSplice(page, i, page[i].children);
    NodesTextOne(page[i]);
    SpliceNoMarkers(page, i, page[i].children);
    out
  }

  /** Splicing a wrapper-free list in place of position `i` leaves no
      wrapper when position `i` held the only one. */
  lemma SpliceNoMarkers(page: seq<Node>, i: nat, mid: seq<Node>)
    requires i < |page|
    ensures NoMarkers(mid) && (forall j :: 0 <= j < |page| && j != i ==> !page[j].Marker?)
      ==> NoMarkers(page[..i] + mid + page[i + 1..])
  {
    var out := page[..i] + mid + page[i + 1..];
    forall k | 0 <= k < |out|
      ensures k < i ==> out[k] == page[k]
      ensures i <= k < i + |mid| ==> out[k] == mid[k - i]
      ensures i + |mid| <= k ==> out[k] == page[k - |mid| + 1]
    {
    }
  }

  function RemoveHighlight(s: Session): (t: Session)
    requires Valid(s)
    ensures Valid(t) && t.highlight.None? && t.popup.None? && NoMarkers(t.page)
    ensures NodesText(t.page) == NodesText(s.page)
    ensures s.highlight.None? ==> t == s
    ensures s.highlight.Some? ==>
      var i := s.highlight.value;
      |t.page| == |s.page| - 1 + |s.page[i].children|
      && t.page[..i] == s.page[..i]
      && t.page[i..i + |s.page[i].children|] == s.page[i].children
      && t.page[i + |s.page[i].children|..] == s.page[i + 1..]
    ensures t.mouse == s.mouse && t.lastWord == s.lastWord
  {
    match s.highlight
    case None => s
    case Some(i) =>
      var page := Unwrap(s.page, i);
      assert page == s.page[..i] + s.page[i].children + s.page[i + 1..];
      RemovePopup(s.(page := page, highlight := None))
  }

  // ---- getWordAtPosition ----

  /** What `caretRangeFromPoint` resolved a point to: a child of the page and
      an offset into it. */
  datatype Caret = Caret(node: nat, offset: nat)

  /** The browser only reports carets at existing nodes and, inside a text
      node, at offsets within its text. */
  predicate CaretInPage(page: seq<Node>, caret: Option<Caret>) {
    caret.Some? ==>
      caret.value.node < |page|
      && (page[caret.value.node].Text? ==> caret.value.offset <= |page[caret.value.node].data|)
  }

  /** The returned `{word, range}`: the range is `[start, end)` of one text node. */
  datatype WordRange = WordRange(node: nat, start: nat, end: nat, word: string)

  predicate RangeInPage(page: seq<Node>, r: WordRange) {
    r.node < |page| && page[r.node].Text? && r.start <= r.end <= |page[r.node].data|
  }

  function GetWordAtPosition(page: seq<Node>, caret: Option<Caret>): (r: Option<WordRange>)
    requires CaretInPage(page, caret)
    ensures r.Some? <==> caret.Some? && page[caret.value.node].Text?
    ensures r.Some? ==>
      && r.value.node == caret.value.node
      && RangeInPage(page, r.value)
      && IsMaximalRun(page[r.value.node].data, caret.value.offset, r.value.start, r.value.end)
      && r.value.word == page[r.value.node].data[r.value.start..r.value.end]
  {
    match caret
    case None => None
    case Some(c) =>
      if !page[c.node].Text? then None
      else
        var w := WordAt(page[c.node].data, c.offset);
        Some(WordRange(c.node, w.start, w.end, w.word))
  }

  // ---- highlightWord / createPopup ----

  /** `range.surroundContents(span)` on a range inside one text node: the
      node is split before and after the range and the middle is wrapped. */
  function Surround(page: seq<Node>, r: WordRange, theme: Theme): (out: seq<Node>)
    requires RangeInPage(page, r)
    ensures |out| == |page| + 2
    ensures out[..r.node] == page[..r.node] && out[r.node + 3..] == page[r.node + 1..]
    ensures out[r.node + 1].Marker? && out[r.node + 1].theme == theme
    ensures NodesText(out[r.node + 1].children) == page[r.node].data[r.start..r.end]
    ensures NodesText(out[r.node..r.node + 3]) == page[r.node].data
  {
    var d := page[r.node].data;
    var mid := [Text(d[..r.start]), Marker([Text(d[r.start..r.end])], theme), Text(d[r.end..])];
    ThreeWayText(d, r.start, r.end, theme);
    var out := page[..r.node] + mid + page[r.node + 1..];
    assert out[r.node..r.node + 3] == mid;
    out
  }

  /** The three pieces `surroundContents` leaves behind spell the node's
      text again. */
  lemma ThreeWayText(d: string, i: nat, j: nat, theme: Theme)
    requires i <= j <= |d|
    ensures NodesText([Text(d[i..j])]) == d[i..j]
    ensures NodesText([Text(d[..i]), Marker([Text(d[i..j])], theme), Text(d[j..])]) == d
  {
    var a, m, b := Text(d[..i]), Marker([Text(d[i..j])], theme), Text(d[j..]);
    NodesTextOne(Text(d[i..j]));
    assert [a, m, b] == [a] + [m] + [b];
    NodesTextAppend([a], [m]);
    NodesTextAppend([a] + [m], [b]);
    NodesTextOne(a);
    NodesTextOne(m);
    NodesTextOne(b);
    assert d[..i] + d[i..j] + d[j..] == d;
  }

  /** Wrapping keeps the text content and leaves exactly one wrapper, right
      after the text before the range. */
  lemma SurroundText(page: seq<Node>, r: WordRange, theme: Theme)
    requires RangeInPage(page, r)
    ensures NodesText(Surround(page, r, theme)) == NodesText(page)
  {
    var out := Surround(page, r, theme);
    var i := r.node;
    assert out == page[..i] + out[i..i + 3] + page[i + 1..];
    NodesTextSplice(page, i, out[i..i + 3]);
    NodesTextOne(page[i]);
  }

  lemma SurroundMarkers(page: seq<Node>, r: WordRange, theme: Theme)
    requires RangeInPage(page, r) && NoMarkers(page)
    ensures |Surround(page, r, theme)| == |page| + 2
    ensures forall j :: 0 <= j < |page| + 2 ==> (Surround(page, r, theme)[j].Marker? <==> j == r.node + 1)
  {
    var d := page[r.node].data;
    var mid := [Text(d[..r.start]), Marker([Text(d[r.start..r.end])], theme), Text(d[r.end..])];
    var out := Surround(page, r, theme);
    forall j | 0 <= j < |out|
      ensures out[j].Marker? <==> j == r.node + 1
    {
      if j < r.node {
        assert out[j] == page[j];
      } else if j < r.node + 3 {
        assert out[j] == mid[j - r.node];
      } else {
        assert out[j] == page[j - 2];
      }
    }
  }

  /** What the lookup asks of the outside world. */
  datatype Effect =
    | WordMessage(word: string)   // `chrome.runtime.sendMessage`
    | Fetch(url: string)          // the dictionary request

  const Endpoint := "https://api.dictionaryapi.dev/api/v2/entries/en/"

  /** The request for a word: the endpoint, then one character per
      character of the word, none of them a capital; a `\w` character stays
      a `\w` character, so a looked-up word needs no escaping. */
  function RequestUrl(word: string): (url: string)
    ensures |url| == |Endpoint| + |word| && Endpoint <= url
    ensures forall k :: |Endpoint| <= k < |url| ==> !IsUpper(url[k])
    ensures forall k :: |Endpoint| <= k < |url| ==> (IsWordChar(url[k]) <==> IsWordChar(word[k - |Endpoint|]))
  {
    Endpoint + Lower(word)
  }

  /** The lookup ignores case: two words give the same request exactly when
      they agree after lower-casing. */
  lemma RequestUrlIgnoresCase(a: string, b: string)
    ensures RequestUrl(Lower(a)) == RequestUrl(a)
    ensures RequestUrl(a) == RequestUrl(b) <==> Lower(a) == Lower(b)
  {
    LowerIdempotent(a);
    if RequestUrl(a) == RequestUrl(b) {
      assert RequestUrl(a)[|Endpoint|..] == Lower(a);
      assert RequestUrl(b)[|Endpoint|..] == Lower(b);
    }
  }

  /** A word without capitals is requested exactly as it is. */
  lemma LowerWordRequestedAsIs(w: string)
    requires forall k :: 0 <= k < |w| ==> !IsUpper(w[k])
    ensures RequestUrl(w) == Endpoint + w
  {
    assert Lower(w) == w;
  }

  datatype Step = Step(session: Session, effects: seq<Effect>)

  /** The part of `highlightWord` after its leading `removeHighlight`, with
      the theme already decided: wrap the range, open the loading popup
      below the wrapper's rectangle `anchor` (page coordinates add the
      scroll offsets), and request the definition of `lastWord`. */
  function Install(s: Session, r: WordRange, anchor: Rect, scroll: Point, theme: Theme): (t: Step)
    requires Valid(s) && s.highlight.None? && RangeInPage(s.page, r)
    ensures Valid(t.session)
    ensures t.session.highlight == Some(r.node + 1)
    ensures t.session.page == Surround(s.page, r, theme)
    ensures t.session.page[r.node + 1] == Marker([Text(s.page[r.node].data[r.start..r.end])], theme)
    ensures NodesText(t.session.page) == NodesText(s.page)
    ensures t.session.popup == Some(Popup(PlainText(Loading), anchor.left + scroll.x, anchor.bottom + scroll.y, theme))
    ensures t.session.mouse == s.mouse && t.session.lastWord == s.lastWord
    ensures t.effects == [Fetch(RequestUrl(s.lastWord))]
  {
    var d := s.page[r.node].data;
    var page := Surround(s.page, r, theme);
    SurroundText(s.page, r, theme);
    SurroundMarkers(s.page, r, theme);
    assert page[r.node + 1] == Marker([Text(d[r.start..r.end])], theme);
    var popup := Popup(PlainText(Loading), anchor.left + scroll.x, anchor.bottom + scroll.y, theme);
    Step(s.(page := page, highlight := Some(r.node + 1), popup := Some(popup)), [Fetch(RequestUrl(s.lastWord))])
  }

  /** `highlightWord` with the corrected theme detection: the word is always
      wrapped and the popup always opened. `r` is a range of the page as it
      stands after the leading `removeHighlight`. */
  function HighlightWord(s: Session, r: WordRange, anchor: Rect, scroll: Point, background: string): (t: Step)
    requires Valid(s) && RangeInPage(RemoveHighlight(s).page, r)
    ensures Valid(t.session)
    ensures t.session.highlight.Some? && t.session.popup.Some?
    ensures NodesText(t.session.page) == NodesText(s.page)
    ensures t.session.page[t.session.highlight.value].theme == t.session.popup.value.theme == Classify(background)
    ensures t.effects == [Fetch(RequestUrl(s.lastWord))]
  {
    Install(RemoveHighlight(s), r, anchor, scroll, Classify(background))
  }

  /** `highlightWord` as written: when the background is not `rgb(...)`,
      `setThemeAwareHighlight` throws before `surroundContents`, so the
      lookup ends with neither highlight nor popup and no request. */
  function HighlightWordAsWritten(s: Session, r: WordRange, anchor: Rect, scroll: Point, background: string): (t: Step)
    requires Valid(s) && RangeInPage(RemoveHighlight(s).page, r)
    ensures Valid(t.session)
    ensures ParseRgb(background).None? ==>
      t.session == RemoveHighlight(s) && t.session.highlight.None? && t.session.popup.None? && t.effects == []
    ensures ParseRgb(background).Some? ==> t == HighlightWord(s, r, anchor, scroll, background)
  {
    match ClassifyAsWritten(background)
    case None => Step(RemoveHighlight(s), [])
    case Some(theme) => Install(RemoveHighlight(s), r, anchor, scroll, theme)
  }

  /** On the transparent background browsers report for an unstyled body, the
      code as written installs nothing while the corrected code highlights. */
  lemma TransparentBackgroundLosesHighlight(s: Session, r: WordRange, anchor: Rect, scroll: Point)
    requires Valid(s) && RangeInPage(RemoveHighlight(s).page, r)
    ensures HighlightWordAsWritten(s, r, anchor, scroll, "rgba(0, 0, 0, 0)").session.highlight.None?
    ensures HighlightWordAsWritten(s, r, anchor, scroll, "rgba(0, 0, 0, 0)").effects == []
    ensures HighlightWord(s, r, anchor, scroll, "rgba(0, 0, 0, 0)").session.highlight.Some?
  {
    TransparentDoesNotMatch();
  }

  /** Highlighting and then removing the highlight restores the text
      content; the text node stays split in three at the range boundaries. */
  lemma HighlightThenRemove(s: Session, r: WordRange, anchor: Rect, scroll: Point, background: string)
    requires Valid(s) && s.highlight.None? && RangeInPage(s.page, r)
    ensures
      var t := RemoveHighlight(HighlightWord(s, r, anchor, scroll, background).session);
      var d := s.page[r.node].data;
      && t.highlight.None? && t.popup.None?
      && NodesText(t.page) == NodesText(s.page)
      && t.page == s.page[..r.node] + [Text(d[..r.start]), Text(d[r.start..r.end]), Text(d[r.end..])] + s.page[r.node + 1..]
  {
    var theme := Classify(background);
    assert HighlightWord(s, r, anchor, scroll, background) == Install(s, r, anchor, scroll, theme);
    InstallThenRemove(s, r, anchor, scroll, theme);
  }

  lemma InstallThenRemove(s: Session, r: WordRange, anchor: Rect, scroll: Point, theme: Theme)
    requires Valid(s) && s.highlight.None? && RangeInPage(s.page, r)
    ensures
      var t := RemoveHighlight(Install(s, r, anchor, scroll, theme).session);
      var d := s.page[r.node].data;
      t.page == s.page[..r.node] + [Text(d[..r.start]), Text(d[r.start..r.end]), Text(d[r.end..])] + s.page[r.node + 1..]
  {
    var h := Install(s, r, anchor, scroll, theme).session;
    var d := s.page[r.node].data;
    assert h.page == Surround(s.page, r, theme);
    assert h.page == s.page[..r.node] + [Text(d[..r.start]), Marker([Text(d[r.start..r.end])], theme), Text(d[r.end..])] + s.page[r.node + 1..];
    var t := RemoveHighlight(h);
    var expected := s.page[..r.node] + [Text(d[..r.start]), Text(d[r.start..r.end]), Text(d[r.end..])] + s.page[r.node + 1..];
    assert |t.page| == |expected|;
    forall j | 0 <= j < |t.page|
      ensures t.page[j] == expected[j]
    {
      if j <= r.node {
        assert t.page[j] == h.page[j];
      } else if j == r.node + 1 {
        assert t.page[j] == h.page[r.node + 1].children[0];
      } else {
        assert t.page[j] == h.page[j];
      }
    }
  }

  // ---- event handlers ----

  /** The mousemove handler: remember the mouse position, and tear down the
      highlight and popup when both exist and the mouse is over neither of
      their rectangles. */
  function OnMouseMove(s: Session, p: Point, highlightRect: Rect, popupRect: Rect): (t: Session)
    requires Valid(s)
    ensures Valid(t) && t.mouse == p
    ensures t.highlight.None? && t.popup.None? ==> NodesText(t.page) == NodesText(s.page)
    ensures (s.highlight.Some? && t.highlight.None?)
        <==> (s.highlight.Some? && s.popup.Some?
              && !IsMouseInElement(p, highlightRect) && !IsMouseInElement(p, popupRect))
    ensures t.highlight.Some? ==> t == s.(mouse := p)
    ensures s.highlight.None? ==> t == s.(mouse := p)
    ensures s.highlight.Some? && t.highlight.None? ==> t == RemoveHighlight(s).(mouse := p)
    ensures t.lastWord == s.lastWord
  {
    var moved := s.(mouse := p);
    if s.highlight.Some? && s.popup.Some?
       && !IsMouseInElement(p, highlightRect) && !IsMouseInElement(p, popupRect)
    then RemoveHighlight(moved)
    else moved
  }

  datatype KeyEvent = KeyEvent(key: string, ctrlKey: bool)

  /** Ctrl+Q, fixed in the content script. */
  predicate IsLookupShortcut(e: KeyEvent) {
    e.ctrlKey && e.key == "q"
  }

  /** The keydown handler. On Ctrl+Q it removes the old highlight, resolves
      the word under the last known mouse position (`caret`, resolved in
      the page after that removal), and for a non-empty word sends it to the
      extension, highlights it and requests its definition. */
  function OnKeyDown(s: Session, e: KeyEvent, caret: Option<Caret>, anchor: Rect, scroll: Point, background: string): (t: Step)
    requires Valid(s)
    requires IsLookupShortcut(e) ==> CaretInPage(RemoveHighlight(s).page, caret)
    ensures Valid(t.session)
    ensures !IsLookupShortcut(e) ==> t == Step(s, [])
    ensures IsLookupShortcut(e) ==>
      var r := GetWordAtPosition(RemoveHighlight(s).page, caret);
      if r.None? || r.value.word == "" then
        t.session == RemoveHighlight(s) && t.session.highlight.None? && t.session.popup.None? && t.effects == []
      else
        && t.effects == [WordMessage(r.value.word), Fetch(RequestUrl(r.value.word))]
        && t.session.lastWord == r.value.word
        && t.session.highlight == Some(r.value.node + 1)
        && NodesText(t.session.page[r.value.node + 1].children) == r.value.word
        && t.session.popup.Some? && t.session.popup.value.content == PlainText(Loading)
        && NodesText(t.session.page) == NodesText(s.page)
        && t.session.mouse == s.mouse
        && t.session.page == Surround(RemoveHighlight(s).page, r.value, Classify(background))
        && t.session.popup == Some(Popup(PlainText(Loading), anchor.left + scroll.x, anchor.bottom + scroll.y, Classify(background)))
  {
    if !IsLookupShortcut(e) then Step(s, [])
    else
      var cleared := RemoveHighlight(s);
      var r := GetWordAtPosition(cleared.page, caret);
      if r.None? || r.value.word == "" then Step(cleared, [])
      else LookUp(cleared, r.value, anchor, scroll, background)
  }

  /** The keydown handler once a word is found in the cleared page: it
      becomes `lastWord`, is sent to the extension, and is highlighted. */
  function LookUp(cleared: Session, r: WordRange, anchor: Rect, scroll: Point, background: string): (t: Step)
    requires Valid(cleared) && cleared.highlight.None? && RangeInPage(cleared.page, r)
    requires r.word == cleared.page[r.node].data[r.start..r.end]
    ensures Valid(t.session)
    ensures t.effects == [WordMessage(r.word), Fetch(RequestUrl(r.word))]
    ensures t.session.lastWord == r.word
    ensures t.session.highlight == Some(r.node + 1)
    ensures NodesText(t.session.page[r.node + 1].children) == r.word
    ensures t.session.popup.Some? && t.session.popup.value.content == PlainText(Loading)
    ensures NodesText(t.session.page) == NodesText(cleared.page)
    ensures t.session.mouse == cleared.mouse
    ensures t.session.page == Surround(cleared.page, r, Classify(background))
    ensures t.session.popup == Some(Popup(PlainText(Loading), anchor.left + scroll.x, anchor.bottom + scroll.y, Classify(background)))
  {
    var named := cleared.(lastWord := r.word);
    var st := HighlightWord(named, r, anchor, scroll, background);
    HighlightFound(named, r, anchor, scroll, background);
    Step(st.session, [WordMessage(r.word)] + st.effects)
  }

  /** Highlighting a found word on a page without a highlight installs it
      directly, and the new wrapper holds exactly that word. */
  lemma HighlightFound(s: Session, r: WordRange, anchor: Rect, scroll: Point, background: string)
    requires Valid(s) && s.highlight.None? && RangeInPage(s.page, r)
    requires r.word == s.page[r.node].data[r.start..r.end]
    ensures HighlightWord(s, r, anchor, scroll, background) == Install(s, r, anchor, scroll, Classify(background))
    ensures NodesText(HighlightWord(s, r, anchor, scroll, background).session.page[r.node + 1].children) == r.word
    ensures
      var t := HighlightWord(s, r, anchor, scroll, background);
      && t.effects == [Fetch(RequestUrl(s.lastWord))]
      && t.session.highlight == Some(r.node + 1) && t.session.lastWord == s.lastWord
      && t.session.popup.Some? && t.session.popup.value.content == PlainText(Loading)
      && NodesText(t.session.page) == NodesText(s.page)
      && t.session.mouse == s.mouse
      && t.session.page == Surround(s.page, r, Classify(background))
      && t.session.popup == Some(Popup(PlainText(Loading), anchor.left + scroll.x, anchor.bottom + scroll.y, Classify(background)))
  {
    var t := Install(s, r, anchor, scroll, Classify(background));
    assert HighlightWord(s, r, anchor, scroll, background) == t;
    NodesTextOne(Text(r.word));
  }

  /** The keydown handler as written: on a background the theme pattern
      rejects, the word is already remembered and sent when
      `setThemeAwareHighlight` throws, so nothing is highlighted, no popup
      opens and no definition is requested. */
  function OnKeyDownAsWritten(s: Session, e: KeyEvent, caret: Option<Caret>, anchor: Rect, scroll: Point, background: string): (t: Step)
    requires Valid(s)
    requires IsLookupShortcut(e) ==> CaretInPage(RemoveHighlight(s).page, caret)
    ensures Valid(t.session)
    ensures ParseRgb(background).Some? ==> t == OnKeyDown(s, e, caret, anchor, scroll, background)
    ensures ParseRgb(background).None? && IsLookupShortcut(e) ==>
      var r := GetWordAtPosition(RemoveHighlight(s).page, caret);
      && t.session.highlight.None? && t.session.popup.None?
      && t.session.page == RemoveHighlight(s).page
      && t.session.mouse == s.mouse
      && (r.None? || r.value.word == "" ==> t.effects == [] && t.session.lastWord == s.lastWord)
      && (r.Some? && r.value.word != "" ==> t.effects == [WordMessage(r.value.word)] && t.session.lastWord == r.value.word)
    ensures !IsLookupShortcut(e) ==> t == Step(s, [])
  {
    if !IsLookupShortcut(e) then Step(s, [])
    else
      var cleared := RemoveHighlight(s);
      var r := GetWordAtPosition(cleared.page, caret);
      if r.None? || r.value.word == "" then Step(cleared, [])
      else
        var named := cleared.(lastWord := r.value.word);
        var st := HighlightWordAsWritten(named, r.value, anchor, scroll, background);
        Step(st.session, [WordMessage(r.value.word)] + st.effects)
  }

  /** `updatePopupContent`: replaces the popup's content, if there is a popup,
      and nothing else. */
  function UpdatePopupContent(s: Session, html: string): (t: Session)
    requires Valid(s)
    ensures Valid(t)
    ensures s.popup.None? ==> t == s
    ensures s.popup.Some? ==>
      t.popup.Some? && t.popup.value.content == Markup(html)
      && t.popup.value.(content := s.popup.value.content) == s.popup.value
      && t.(popup := s.popup) == s
  {
    match s.popup
    case None => s
    case Some(p) => s.(popup := Some(p.(content := Markup(html))))
  }

  /** The response handler of `fetchDefinition` for `word`: whatever popup is
      open at that moment receives the rendering, or the not-found text. */
  function OnDefinition(s: Session, word: string, resp: Response): (t: Session)
    requires Valid(s)
    ensures Valid(t)
    ensures s.popup.None? ==> t == s
    ensures s.popup.Some? ==> t.popup.Some?
    ensures s.popup.Some? ==>
      (t.popup.value.content == Markup(NotFound) <==> !(resp.Entries? && |resp.entries| > 0))
    ensures s.popup.Some? && resp.Entries? && |resp.entries| > 0 ==>
      t.popup.value.content == Markup(Html(EntryBlocks(word, resp.entries[0])))
    ensures s.popup.Some? ==>
      t.(popup := s.popup) == s && t.popup.value.(content := s.popup.value.content) == s.popup.value
  {
    NotFoundIff(word, resp);
    UpdatePopupContent(s, RenderResponse(word, resp))
  }
}

=== FILE: Words.dfy ===
/** Word-boundary expansion around a caret offset (`getWordAtPosition`):
    starting from the offset, grow left and right over `\w` characters. */
module Words {
  import opened CharClass

  predicate AllWordChars(text: string, lo: nat, hi: nat)
    requires lo <= hi <= |text|
  {
    forall k :: lo <= k < hi ==> IsWordChar(text[k])
  }

  /** `[start, end)` is the maximal run of word characters that touches
      `offset`: it contains the offset, holds only word characters, and
      cannot be grown on either side. */
  predicate IsMaximalRun(text: string, offset: nat, start: nat, end: nat) {
    && start <= offset <= end <= |text|
    && AllWordChars(text, start, end)
    && (start == 0 || !IsWordChar(text[start - 1]))
    && (end == |text| || !IsWordChar(text[end]))
  }

  /** Where the leftward scan from `i` stops. */
  function RunStart(text: string, i: nat): (s: nat)
    requires i <= |text|
    ensures s <= i && AllWordChars(text, s, i)
    ensures s == 0 || !IsWordChar(text[s - 1])
    decreases i
  {
    if i > 0 && IsWordChar(text[i - 1]) then RunStart(text, i - 1) else i
  }

  /** Where the rightward scan from `i` stops. */
  function RunEnd(text: string, i: nat): (e: nat)
    requires i <= |text|
    ensures i <= e <= |text| && AllWordChars(text, i, e)
    ensures e == |text| || !IsWordChar(text[e])
    decreases |text| - i
  {
    if i < |text| && IsWordChar(text[i]) then RunEnd(text, i + 1) else i
  }

  /** The returned `{word, range}` pair, with the range as two offsets into
      the same text node. */
  datatype Word = Word(start: nat, end: nat, word: string)

  function WordAt(text: string, offset: nat): (w: Word)
    requires offset <= |text|
    ensures IsMaximalRun(text, offset, w.start, w.end)
    ensures w.word == text[w.start..w.end]
  {
    var s := RunStart(text, offset);
    var e := RunEnd(text, offset);
    Word(s, e, text[s..e])
  }

  /** A caret has exactly one maximal run around it. */
  lemma MaximalRunUnique(text: string, offset: nat, s1: nat, e1: nat, s2: nat, e2: nat)
    requires IsMaximalRun(text, offset, s1, e1)
    requires IsMaximalRun(text, offset, s2, e2)
    ensures s1 == s2 && e1 == e2
  {
  }

  /** The word is empty exactly when neither neighbour of the caret is a
      word character. */
  lemma EmptyWordIff(text: string, offset: nat)
    requires offset <= |text|
    ensures WordAt(text, offset).word == [] <==>
      (offset == 0 || !IsWordChar(text[offset - 1])) && (offset == |text| || !IsWordChar(text[offset]))
  {
    var w := WordAt(text, offset);
    if offset > 0 && IsWordChar(text[offset - 1]) {
      assert w.start < offset;
    }
    if offset < |text| && IsWordChar(text[offset]) {
      assert offset < w.end;
    }
  }

  /** The two scanning loops of `getWordAtPosition`. */
  method FindWord(text: string, offset: nat) returns (start: nat, end: nat, word: string)
    requires offset <= |text|
    ensures IsMaximalRun(text, offset, start, end)
    ensures word == text[start..end]
    ensures Word(start, end, word) == WordAt(text, offset)
  {
    start := offset;
    end := offset;
    while start > 0 && IsWordChar(text[start - 1])
      invariant start <= offset
      invariant AllWordChars(text, start, offset)
    {
      start := start - 1;
    }
    while end < |text| && IsWordChar(text[end])
      invariant offset <= end <= |text|
      invariant AllWordChars(text, offset, end)
    {
      end := end + 1;
    }
    word := text[start..end];
    var w := WordAt(text, offset);
    MaximalRunUnique(text, offset, start, end, w.start, w.end);
  }
}

=== FILE: Wrappers.dfy ===
/** The optional-value datatype used wherever the source yields `null` or
    `undefined` instead of a value. */
module Wrappers {

  datatype Option<+T> = None | Some(value: T) {

    /** True if this is None; lets `:-` propagate a missing value. */
    predicate IsFailure() {
      None?
    }

    function PropagateFailure<U>(): Option<U>
      requires None?
    {
      None
    }

    function Extract(): T
      requires Some?
    {
      value
    }
  }
}
